=== FILE: README.md ===
# InstructorsController, modelled in Dafny

A model of the domain logic inside the `InstructorsController` of the
school-administration demo: how an instructor's course assignments are
reconciled with a submitted checkbox selection, how the course checklist
is built, how a blank office is dropped on edit, how deleting an instructor
unlinks the departments it administers, the Index drill-down, and the
lookups behind Details, Delete and Edit.

The database is a `School` value holding the instructors, courses and
departments tables. The Entity Framework context in `UpdateInstructorCourses` is a
`Tracked` value: the instructor being edited plus the set of course
assignments handed to `Remove` and not yet saved. The assignments the
store holds after a save are the collection minus that set (`Effective`), and a
successful `SaveChangesAsync` is `Commit`. Exceptions become
`Failure(fault)`:

- `Single`, `SingleAsync` or `SingleOrDefault` with the wrong number of matches gives `InvalidOperation`.
- A null argument passed to a framework call or a LINQ operator gives `ArgumentNull`.

Modules, one per concern:

- `Results`: Option and Result types, and the faults.
- `Queries`: the LINQ and `HashSet` operations the controller uses.
- `Entities`: the records and tables.
- `Reconciliation`: `UpdateInstructorCourses`.
- `Checklist`: `PopulateAssignedCourseData`.
- `Office`: blank-office clearing.
- `Departments`: `DeleteConfirmed`.
- `IndexPage`: the Index drill-down.
- `InstructorsController`: the remaining actions.

Four behaviours of the code worth knowing:

- Edit (POST) redirects to Index even when `SaveChangesAsync` throws a
  DbUpdateException. The error it records is lost with the redirect, and the form is not
  redisplayed.
- When the allow-listed update fails validation, Edit (POST) returns the view without
  rebuilding the course checklist.
- Delete (POST) and the Index drill-down throw when the expected single match is missing.
  They do not answer NotFound.
- Create (POST) with a null `selectedCourses` never creates the assignment collection. When
  validation then fails, building the checklist from that null collection throws. Whether the
  model binder can hand the action a null array is outside the model: with no box ticked it
  binds an empty array, which creates an empty collection.

## Model

| member | source | states |
|---|---|---|
| Queries.Matching | EFRolesAuthorizationClaimsAuthentication/Controllers/InstructorsController.cs:43-44 | the `Where` filter (also at lines 51 and 250): an element is kept if and only if its key is the one sought; nothing is kept when no key matches |
| Queries.Single | EFRolesAuthorizationClaimsAuthentication/Controllers/InstructorsController.cs:200 | succeeds exactly when one element carries the key; the result is that element and every match equals it; otherwise InvalidOperation |
| Queries.SingleOrDefault | EFRolesAuthorizationClaimsAuthentication/Controllers/InstructorsController.cs:66-67 | null exactly when nothing matches, the unique match when one does, InvalidOperation when several do |
| Queries.Distinct | EFRolesAuthorizationClaimsAuthentication/Controllers/InstructorsController.cs:188-189 | a HashSet built from a sequence holds the same values, each once |
| Queries.Except | EFRolesAuthorizationClaimsAuthentication/Controllers/InstructorsController.cs:190 | holds exactly the values of the first sequence absent from the second, each once |
| Entities.AssignmentsFor | EFRolesAuthorizationClaimsAuthentication/Controllers/InstructorsController.cs:96-101 | one assignment per selected ID, in selection order, all carrying the instructor's ID; covers exactly the selected IDs |
| Entities.CourseIdList | EFRolesAuthorizationClaimsAuthentication/Controllers/InstructorsController.cs:189 | the `Select(ca => ca.CourseID)` projection (also at line 208): one ID per assignment, position by position, so its members are exactly the instructor's course IDs |
| Entities.FixKeys | EFRolesAuthorizationClaimsAuthentication/Controllers/InstructorsController.cs:104-105 | the relationship fixup of an insert or save: the same courses in the same order and the same office location, every dependent carrying the instructor's ID; the instructor then owns its dependents; nothing else changes |
| Entities.FixKeysOwned | EFRolesAuthorizationClaimsAuthentication/Controllers/InstructorsController.cs:165 | an instructor whose dependents already carry its ID is left unchanged by the fixup |
| Reconciliation.Additions | EFRolesAuthorizationClaimsAuthentication/Controllers/InstructorsController.cs:190-197 | the appended assignments carry the instructor's ID and cover exactly the selected courses the instructor lacked, each once |
| Reconciliation.RemovalIds | EFRolesAuthorizationClaimsAuthentication/Controllers/InstructorsController.cs:198 | exactly the instructor's course IDs that were not selected |
| Reconciliation.MarkRemovals | EFRolesAuthorizationClaimsAuthentication/Controllers/InstructorsController.cs:198-202 | succeeds exactly when every ID to drop has one assignment, and then adds exactly the assignments carrying those IDs to the pending removals |
| Reconciliation.UpdateInstructorCourses | EFRolesAuthorizationClaimsAuthentication/Controllers/InstructorsController.cs:180-203 | a null selection empties the collection; otherwise old assignments stay in place, the additions are appended, and exactly the assignments of unselected courses are marked; fails exactly when a course to drop has zero or several assignments; nothing else changes |
| Reconciliation.Commit | EFRolesAuthorizationClaimsAuthentication/Controllers/InstructorsController.cs:165 | saving empties the pending set and keeps exactly the effective course IDs; the fixup gives every remaining assignment and the office the instructor's ID, so the saved instructor owns its dependents; the office's presence and location and every other field are kept |
| Reconciliation.ReconcileYieldsSelection | EFRolesAuthorizationClaimsAuthentication/Controllers/InstructorsController.cs:182-202 | after the pending removals are applied, a course is held if and only if it was selected (none for a null selection) |
| Reconciliation.ReconcileIdempotent | EFRolesAuthorizationClaimsAuthentication/Controllers/InstructorsController.cs:162-172 | a second run with the same selection on the first run's result changes nothing and cannot fail |
| Reconciliation.MatchingSelectionIsFixed | EFRolesAuthorizationClaimsAuthentication/Controllers/InstructorsController.cs:188-202 | an instructor holding exactly the selected courses, with nothing pending, is left unchanged |
| Reconciliation.ReconcileAfterSave | EFRolesAuthorizationClaimsAuthentication/Controllers/InstructorsController.cs:165-172 | after a successful save, the second reconciliation in Edit changes nothing |
| Checklist.Rows | EFRolesAuthorizationClaimsAuthentication/Controllers/InstructorsController.cs:210-218 | one row per catalog course, in catalog order, with its ID and title, ticked if and only if the course is taught |
| Checklist.PopulateAssignedCourseData | EFRolesAuthorizationClaimsAuthentication/Controllers/InstructorsController.cs:205-219 | one row per course in catalog order, same ID and title, ticked if and only if some assignment of the instructor has that course |
| Checklist.TickedAreTaught | EFRolesAuthorizationClaimsAuthentication/Controllers/InstructorsController.cs:208-216 | the ticked IDs are exactly the catalog IDs that are taught |
| Checklist.ChecklistTicksAssigned | EFRolesAuthorizationClaimsAuthentication/Controllers/InstructorsController.cs:205-219 | the ticked IDs are exactly the catalog courses among the instructor's assignments |
| Office.ClearBlankOffice | EFRolesAuthorizationClaimsAuthentication/Controllers/InstructorsController.cs:158-161 | the office becomes null if and only if it was null or its location was null, empty or white space; a kept office is unchanged and has a visible character; nothing else changes |
| Office.IsNullOrWhiteSpace | EFRolesAuthorizationClaimsAuthentication/Controllers/InstructorsController.cs:158 | true exactly when the location is null or nothing is left after trimming leading white space, under the `char.IsWhiteSpace` set |
| Office.AllWhiteSpaceIffTrimmedEmpty | EFRolesAuthorizationClaimsAuthentication/Controllers/InstructorsController.cs:158 | a string consists only of white space if and only if trimming leaves it empty |
| Departments.UnlinkDepartments | EFRolesAuthorizationClaimsAuthentication/Controllers/InstructorsController.cs:249-252 | exactly the departments pointing at the instructor lose the reference; all others are unchanged; none is removed |
| Departments.DeleteConfirmed | EFRolesAuthorizationClaimsAuthentication/Controllers/InstructorsController.cs:243-258 | succeeds exactly when one instructor has the ID; then removes exactly that instructor, keeps courses, keeps every department and sets the administrator of the ones pointing at it to null; every remaining dependent stays under its owner |
| Departments.DeleteCascades | EFRolesAuthorizationClaimsAuthentication/Controllers/InstructorsController.cs:254 | the deletion takes exactly the deleted instructor's course assignments and office, and no others |
| IndexPage.CoursesOf | EFRolesAuthorizationClaimsAuthentication/Controllers/InstructorsController.cs:45 | each assignment's course navigation is a catalog course with the same ID, in assignment order |
| IndexPage.InstructorCourses | EFRolesAuthorizationClaimsAuthentication/Controllers/InstructorsController.cs:40-46 | no ID gives no course list; with an ID, succeeds exactly when one instructor matches, and then lists that instructor's courses |
| IndexPage.CourseEnrollments | EFRolesAuthorizationClaimsAuthentication/Controllers/InstructorsController.cs:48-53 | a course ID without a course list throws ArgumentNull from `Where`; otherwise succeeds exactly when one listed course matches, and shows its enrollments |
| IndexPage.Index | EFRolesAuthorizationClaimsAuthentication/Controllers/InstructorsController.cs:24-56 | keeps the instructor list; the course list exists if and only if an ID was given and the enrollments if and only if a course ID was; the course list holds, in order, the catalog course of each of the chosen instructor's assignments; a course ID alone throws ArgumentNull; an ID matching zero or several instructors throws |
| IndexPage.DrillDownSucceedsIff | EFRolesAuthorizationClaimsAuthentication/Controllers/InstructorsController.cs:43-52 | with both IDs and the instructor found, the drill-down succeeds if and only if the instructor has one assignment for the course, and throws when it has none |
| IndexPage.DrillDownShowsEnrollments | EFRolesAuthorizationClaimsAuthentication/Controllers/InstructorsController.cs:51-52 | a successful drill-down shows the enrollments of the chosen catalog course |
| InstructorsController.ShowInstructor | EFRolesAuthorizationClaimsAuthentication/Controllers/InstructorsController.cs:59-74 | the Details lookup, also run by Delete (GET) at lines 223-238: NotFound for a missing ID or when no instructor has the ID, else the instructor with that ID; throws only when several match |
| InstructorsController.CreatePage | EFRolesAuthorizationClaimsAuthentication/Controllers/InstructorsController.cs:77-85 | no model, and one unticked row per course |
| InstructorsController.AssignSelected | EFRolesAuthorizationClaimsAuthentication/Controllers/InstructorsController.cs:93-102 | with a selection, one assignment per selected ID in order with the instructor's ID, covering exactly the selected IDs; with a null selection, no assignments; nothing else changes |
| InstructorsController.CreatePost | EFRolesAuthorizationClaimsAuthentication/Controllers/InstructorsController.cs:91-111 | throws ArgumentNull exactly when validation fails with a null selection (line 208 reads the null collection); a valid submission appends the submitted instructor under the generated key with one assignment per selected ID, in selection order and duplicates kept (none for a null selection), every dependent carrying that key, and redirects; an invalid one with a selection leaves the store alone and ticks exactly the selected catalog courses |
| InstructorsController.CreateKeepsOwnership | EFRolesAuthorizationClaimsAuthentication/Controllers/InstructorsController.cs:104-105 | inserting an instructor keeps every stored assignment and office under the instructor that owns it |
| InstructorsController.EditPage | EFRolesAuthorizationClaimsAuthentication/Controllers/InstructorsController.cs:114-132 | NotFound for a missing or unknown ID, else the form for the instructor with that ID, ticking exactly its catalog courses |
| InstructorsController.ApplyEdits | EFRolesAuthorizationClaimsAuthentication/Controllers/InstructorsController.cs:150-156 | the allow-listed update: the ID and the course assignments stay as stored, and the names, hire date and office take the submitted values |
| InstructorsController.EditPost | EFRolesAuthorizationClaimsAuthentication/Controllers/InstructorsController.cs:139-178 | as written: a missing ID is NotFound, an unknown ID throws ArgumentNull, a failed validation redisplays the stored instructor with the four submitted fields applied and saves nothing, a valid edit redirects, and an unsaved edit leaves the store unchanged |
| InstructorsController.ReplaceKeepsOwnership | EFRolesAuthorizationClaimsAuthentication/Controllers/InstructorsController.cs:165 | writing an instructor that owns its dependents over the store keeps every stored dependent under its owner |
| InstructorsController.EditKeepsOwnership | EFRolesAuthorizationClaimsAuthentication/Controllers/InstructorsController.cs:150-174 | editing an instructor keeps every stored assignment and office under the instructor that owns it, whatever office the form submits |
| InstructorsController.EditPostGuarded | EFRolesAuthorizationClaimsAuthentication/Controllers/InstructorsController.cs:139-149 | the corrected action: NotFound if and only if the ID is missing or unknown, never ArgumentNull, otherwise the action as written |
| InstructorsController.EditPostSavedWrites | EFRolesAuthorizationClaimsAuthentication/Controllers/InstructorsController.cs:162-174 | a saved edit writes the committed first reconciliation over the stored instructor and redirects |
| InstructorsController.SavedInstructor | EFRolesAuthorizationClaimsAuthentication/Controllers/InstructorsController.cs:158-165 | the saved instructor holds exactly the selected courses, the submitted names and date, and the office only when its location is not blank, carrying the instructor's ID and the submitted location |
| InstructorsController.EditPostSaved | EFRolesAuthorizationClaimsAuthentication/Controllers/InstructorsController.cs:158-174 | a saved edit succeeds exactly when reconciliation can; it stores exactly the selected courses, the submitted fields and a non-blank office under the instructor's ID, and leaves every other instructor, course and department alone |
| InstructorsController.EditPostUnsaved | EFRolesAuthorizationClaimsAuthentication/Controllers/InstructorsController.cs:163-174 | when the save throws, the store is unchanged, the action redirects, and the second reconciliation fails only when the first does |
| InstructorsController.EditPostUnknownIdThrows | EFRolesAuthorizationClaimsAuthentication/Controllers/InstructorsController.cs:146-156 | an Edit POST for an ID no instructor has throws ArgumentNull as written, and answers NotFound once corrected |

## Left out

- Entity Framework querying is left out. This covers `Include`/`ThenInclude`, `AsNoTracking`, the asynchronous queries and the database-side `OrderBy(i => i.LastName)`. Tables are sequences in stored order, and the sort depends on database collation.
- async/await is left out; it carries no logic.
- `SaveChangesAsync` is left out. A save is `Commit`, and a DbUpdateException is the `saved = false` input, which leaves the store unchanged. Storage failure is nondeterministic.
- Model binding and validation are left out: `[Bind]`, `TryUpdateModelAsync`, `ModelState.IsValid`, antiforgery, `ViewData` and view rendering. The bound instructor, the four allow-listed edit fields (`EditForm`) and the validation outcome are inputs. How the binder fills an existing office is not modelled: the submitted office replaces it, and the save gives it the instructor's ID.
- `int.Parse` on the form strings is left out; selections are integer sequences. A parse failure throws inside the framework.
- `InstructorExists` is left out; nothing calls it.
- The checklist built at line 173 is not modelled, because the redirect that follows discards it.
- Queries.Distinct: the enumeration order of a .NET HashSet is unspecified. The model uses first-occurrence order, and no contract depends on the order.
- Reconciliation.Commit: EF's change-tracker fixup is reduced to two rules: a saved collection keeps exactly its non-pending assignments, and every saved dependent takes the instructor's ID.
- InstructorsController.CreatePost: a selection naming the same course twice gives two equal assignments. The key conflict EF would raise when tracking them is not modelled, and neither is a failing save.
- InstructorsController.CreatePost: the key the database generates is an input (`key`). What the store does with a posted non-zero ID is not modelled.
- IndexPage.Index: it requires every assignment to name a catalog course, which the foreign key from CourseAssignment to Course guarantees. A dangling key is outside the model.
- Enrollment and Student carry only their IDs. The Index view shows them, but no logic here reads them.
- Cascade deletes come from ownership: an instructor's assignments and office live inside the instructor record, so removing the record removes them.

## Findings

| source | as written | input that shows it | evidently intended | confidence | as-written member | corrected member |
|---|---|---|---|---|---|---|
| EFRolesAuthorizationClaimsAuthentication/Controllers/InstructorsController.cs:146-156 | Edit (POST) hands the result of `SingleOrDefaultAsync` to `TryUpdateModelAsync` without a null check | POST Edit with id 999 when no instructor has ID 999: `TryUpdateModelAsync` receives a null model and throws ArgumentNullException | NotFound, as Edit (GET) answers at lines 126-129 | medium; not executed | InstructorsController.EditPost | InstructorsController.EditPostGuarded |

=== FILE: checklist.dfy ===
/** `PopulateAssignedCourseData`: the course checklist the create and edit
    forms render, one checkbox per course in the catalog. */
module Checklist {
  import opened Entities

  /** One checkbox: the course and whether the instructor teaches it. */
  datatype AssignedCourseData = AssignedCourseData(courseId: int, title: string, isAssigned: bool)

  /** The `foreach` over the catalog, ticking the courses in `taught`. */
  function Rows(courses: seq<Course>, taught: set<int>): (r: seq<AssignedCourseData>)
    ensures |r| == |courses|
    ensures forall k :: 0 <= k < |r| ==>
      && r[k].courseId == courses[k].courseId
      && r[k].title == courses[k].title
      && (r[k].isAssigned <==> courses[k].courseId in taught)
  {
    if |courses| == 0 then []
    else
      [AssignedCourseData(courses[0].courseId, courses[0].title, courses[0].courseId in taught)]
        + Rows(courses[1..], taught)
  }

  /** The checklist for `instructor` over the course catalog `courses`. */
  function PopulateAssignedCourseData(courses: seq<Course>, instructor: Instructor)
    : (r: seq<AssignedCourseData>)
    ensures |r| == |courses|
    ensures forall k :: 0 <= k < |r| ==>
      && r[k].courseId == courses[k].courseId
      && r[k].title == courses[k].title
      && (r[k].isAssigned <==> exists ca :: ca in instructor.assignments && ca.courseId == courses[k].courseId)
  {
    var instructorCourses := CourseIds(instructor.assignments);
    Rows(courses, instructorCourses)
  }

  /** The course IDs whose boxes are ticked. */
  function Ticked(rows: seq<AssignedCourseData>): set<int> {
    set d | d in rows && d.isAssigned :: d.courseId
  }

  /** The ticked boxes are exactly the catalog courses the instructor
      teaches. */
  lemma TickedAreTaught(courses: seq<Course>, taught: set<int>)
    ensures Ticked(Rows(courses, taught)) == CatalogIds(courses) * taught
  {
  }

  /** The checklist ticks exactly the catalog courses among the
      instructor's assignments. */
  lemma ChecklistTicksAssigned(courses: seq<Course>, instructor: Instructor)
    ensures Ticked(PopulateAssignedCourseData(courses, instructor))
         == CatalogIds(courses) * CourseIds(instructor.assignments)
  {
  }
}

=== FILE: controller.dfy ===
/** The actions of `InstructorsController` that carry domain logic, over
    the school tables as values. Each action returns the page the framework
    would render, or the exception it would raise. */
module InstructorsController {
  import opened Results
  import opened Queries
  import opened Entities
  import opened Checklist
  import opened Office
  import opened Reconciliation

  /** What an action hands back. `Form` carries the checklist the view
      reads from `ViewData["Courses"]`; its model may be null. `Redisplay`
      is the Edit view shown again for a rejected submission, without a
      checklist. */
  datatype Page =
    | NotFound
    | Show(instructor: Instructor)
    | Form(model: Option<Instructor>, checklist: seq<AssignedCourseData>)
    | Redisplay(instructor: Instructor)
    | Redirect

  /** The lookup behind Details and Delete (GET): NotFound for a missing ID
      or an unknown instructor, else the instructor's page. */
  function ShowInstructor(instructors: seq<Instructor>, id: Option<int>): (r: Result<Page>)
    ensures id.None? ==> r == Success(NotFound)
    ensures id.Some? ==> (r == Success(NotFound) <==> forall i :: i in instructors ==> i.id != id.value)
    ensures r.Failure? <==> id.Some? && |Matching(instructors, InstructorKey, id.value)| > 1
    ensures r.Success? && r.value != NotFound ==>
      && id.Some?
      && r.value.Show?
      && r.value.instructor in instructors
      && r.value.instructor.id == id.value
  {
    if id.None? then Success(NotFound)
    else
      var found :- SingleOrDefault(instructors, InstructorKey, id.value);
      if found.None? then Success(NotFound) else Success(Show(found.value))
  }

  /** Create (GET): no model, and a checklist with every course unticked. */
  function CreatePage(courses: seq<Course>): (r: Page)
    ensures r.Form? && r.model.None?
    ensures |r.checklist| == |courses|
    ensures forall k :: 0 <= k < |courses| ==>
      r.checklist[k].courseId == courses[k].courseId && !r.checklist[k].isAssigned
    ensures Ticked(r.checklist) == {}
  {
    var blank := Instructor(0, "", "", 0, None, []);
    var checklist := PopulateAssignedCourseData(courses, blank);
    ChecklistTicksAssigned(courses, blank);
    Form(None, checklist)
  }

  /** Lines 94-102 of Create (POST): one assignment per selected course ID,
      in selection order and carrying the instructor's ID. With a null
      selection the collection is never created: it stays null, and an
      insert stores no assignments for it. */
  function AssignSelected(bound: Instructor, selected: Option<seq<int>>): (r: Instructor)
    ensures selected.None? ==> r.assignments == []
    ensures r.(assignments := bound.assignments) == bound
    ensures selected.Some? ==>
      && |r.assignments| == |selected.value|
      && (forall k :: 0 <= k < |selected.value| ==>
            r.assignments[k] == CourseAssignment(bound.id, selected.value[k]))
      && CourseIds(r.assignments) == SetOf(selected.value)
  {
    if selected.None? then bound.(assignments := [])
    else
      var assignments := AssignmentsFor(bound.id, selected.value);
      assert forall k :: 0 <= k < |assignments| ==> assignments[k].courseId == CourseIdList(assignments)[k];
      assert forall k :: 0 <= k < |assignments| ==> assignments[k] in assignments;
      bound.(assignments := assignments)
  }

  /** Create (POST): a valid submission inserts the instructor with the
      selected assignments under the key the database generates (`key`),
      the fixup giving every dependent that key; an invalid one redisplays
      the form with the submitted boxes still ticked, which throws for
      a null selection, since the collection was then never created. */
  function CreatePost(school: School, bound: Instructor, selected: Option<seq<int>>, valid: bool, key: int)
    : (r: Result<(School, Page)>)
    ensures r.Failure? <==> !valid && selected.None?
    ensures r.Failure? ==> r.fault == ArgumentNull
    ensures r.Success? && valid ==>
      && r.value.1 == Redirect
      && r.value.0.courses == school.courses
      && r.value.0.departments == school.departments
      && |r.value.0.instructors| == |school.instructors| + 1
      && r.value.0.instructors[..|school.instructors|] == school.instructors
      && var added := r.value.0.instructors[|school.instructors|];
      && added.(id := bound.id, assignments := bound.assignments, office := bound.office) == bound
      && added.id == key
      && CourseIds(added.assignments) == Selected(selected)
      && (selected.None? ==> added.assignments == [])
      && (selected.Some? ==> added.assignments == AssignmentsFor(key, selected.value))
      && (added.office.Some? <==> bound.office.Some?)
      && (added.office.Some? ==> added.office.value == OfficeAssignment(key, bound.office.value.location))
      && OwnedByInstructor([added])
    ensures r.Success? && !valid ==>
      && r.value.0 == school
      && r.value.1.Form?
      && r.value.1.model.Some?
      && r.value.1.model.value.(assignments := bound.assignments) == bound
      && |r.value.1.checklist| == |school.courses|
      && Ticked(r.value.1.checklist) == CatalogIds(school.courses) * Selected(selected)
  {
    var instructor := AssignSelected(bound, selected);
    if valid then
      Success((school.(instructors := school.instructors + [FixKeys(instructor.(id := key))]), Redirect))
    else if selected.None? then
      Failure(ArgumentNull)
    else
      ChecklistTicksAssigned(school.courses, instructor);
      Success((school, Form(Some(instructor), PopulateAssignedCourseData(school.courses, instructor))))
  }

  /** Creating an instructor keeps every stored dependent under its owner. */
  lemma CreateKeepsOwnership(school: School, bound: Instructor, selected: Option<seq<int>>, valid: bool, key: int)
    requires OwnedByInstructor(school.instructors)
    ensures var r := CreatePost(school, bound, selected, valid, key);
      r.Success? ==> OwnedByInstructor(r.value.0.instructors)
  {
  }

  /** Edit (GET): NotFound for a missing ID or unknown instructor, else the
      form with the instructor's courses ticked. */
  function EditPage(school: School, id: Option<int>): (r: Result<Page>)
    ensures id.None? ==> r == Success(NotFound)
    ensures id.Some? ==> (r == Success(NotFound) <==> forall i :: i in school.instructors ==> i.id != id.value)
    ensures r.Failure? <==> id.Some? && |Matching(school.instructors, InstructorKey, id.value)| > 1
    ensures r.Success? && r.value != NotFound ==>
      && id.Some?
      && r.value.Form?
      && r.value.model.Some?
      && r.value.model.value in school.instructors
      && r.value.model.value.id == id.value
      && |r.value.checklist| == |school.courses|
      && Ticked(r.value.checklist) == CatalogIds(school.courses) * CourseIds(r.value.model.value.assignments)
  {
    if id.None? then Success(NotFound)
    else
      var found :- SingleOrDefault(school.instructors, InstructorKey, id.value);
      if found.None? then Success(NotFound)
      else
        ChecklistTicksAssigned(school.courses, found.value);
        Success(Form(found, PopulateAssignedCourseData(school.courses, found.value)))
  }

  /** The four fields the Edit action lets the form change. */
  datatype EditForm = EditForm(
    firstMidName: string,
    lastName: string,
    hireDate: int,
    office: Option<OfficeAssignment>)

  /** The allow-listed update: ID and assignments always come from the store. */
  function ApplyEdits(instructor: Instructor, form: EditForm): (r: Instructor)
    ensures r.id == instructor.id && r.assignments == instructor.assignments
    ensures r.firstMidName == form.firstMidName && r.lastName == form.lastName
    ensures r.hireDate == form.hireDate && r.office == form.office
  {
    instructor.(firstMidName := form.firstMidName, lastName := form.lastName,
                hireDate := form.hireDate, office := form.office)
  }

  /** Writes `x` over the stored instructor with the same ID. */
  function Replace(instructors: seq<Instructor>, x: Instructor): (r: seq<Instructor>)
    ensures |r| == |instructors|
    ensures forall k :: 0 <= k < |r| ==> r[k] == if instructors[k].id == x.id then x else instructors[k]
  {
    if |instructors| == 0 then []
    else [if instructors[0].id == x.id then x else instructors[0]] + Replace(instructors[1..], x)
  }

  /** The tracked instructor an Edit POST starts from. */
  function Loaded(i: Instructor, form: EditForm): Tracked {
    Tracked(ClearBlankOffice(ApplyEdits(i, form)), {})
  }

  /** Edit (POST), as written. `valid` is the outcome of the allow-listed
      `TryUpdateModelAsync`; `saved` is false when `SaveChangesAsync` throws
      a DbUpdateException. The action redirects in both save outcomes. An
      ID matching no instructor reaches `TryUpdateModelAsync` with a null
      model, which throws. */
  function EditPost(school: School, id: Option<int>, form: EditForm, valid: bool,
                    selected: Option<seq<int>>, saved: bool): (r: Result<(School, Page)>)
    ensures id.None? ==> r == Success((school, NotFound))
    ensures id.Some? && (forall i :: i in school.instructors ==> i.id != id.value) ==>
      r == Failure(ArgumentNull)
    ensures id.Some? && |Matching(school.instructors, InstructorKey, id.value)| > 1 ==>
      r == Failure(InvalidOperation)
    ensures r.Success? && id.Some? ==> (r.value.1 == Redirect <==> valid)
    ensures r.Success? && id.Some? && !valid ==>
      && r.value.0 == school
      && forall i :: i in school.instructors && i.id == id.value ==> r.value.1 == Redisplay(ApplyEdits(i, form))
    ensures r.Success? && !saved ==> r.value.0 == school
  {
    if id.None? then Success((school, NotFound))
    else
      var found :- SingleOrDefault(school.instructors, InstructorKey, id.value);
      if found.None? then Failure(ArgumentNull)
      else
        if !valid then Success((school, Redisplay(ApplyEdits(found.value, form))))
        else
          var t1 :- UpdateInstructorCourses(selected, Loaded(found.value, form));
          var t2 := if saved then Commit(t1) else t1;
          var stored := if saved then school.(instructors := Replace(school.instructors, t2.instructor)) else school;
          var t3 :- UpdateInstructorCourses(selected, t2);
          Success((stored, Redirect))
  }

  /** Edit (POST) with an unknown ID answered by NotFound, as the GET
      actions answer it; otherwise the action as written. */
  function EditPostGuarded(school: School, id: Option<int>, form: EditForm, valid: bool,
                           selected: Option<seq<int>>, saved: bool): (r: Result<(School, Page)>)
    ensures r.Failure? ==> r.fault != ArgumentNull
    ensures r.Success? && r.value.1 == NotFound <==>
      id.None? || forall i :: i in school.instructors ==> i.id != id.value
    ensures r.Success? && r.value.1 == NotFound ==> r.value.0 == school
    ensures id.Some? && (exists i :: i in school.instructors && i.id == id.value) ==>
      r == EditPost(school, id, form, valid, selected, saved)
  {
    if id.Some? && forall i :: i in school.instructors ==> i.id != id.value then
      Success((school, NotFound))
    else
      EditPost(school, id, form, valid, selected, saved)
  }

  /** Writing an instructor whose dependents carry its key over the store
      keeps every stored dependent under its owner. */
  lemma ReplaceKeepsOwnership(instructors: seq<Instructor>, x: Instructor)
    requires OwnedByInstructor(instructors) && OwnedByInstructor([x])
    ensures OwnedByInstructor(Replace(instructors, x))
  {
  }

  /** Editing an instructor keeps every stored dependent under its owner:
      the save's fixup gives a submitted office the instructor's key. */
  lemma EditKeepsOwnership(school: School, id: Option<int>, form: EditForm, valid: bool,
                           selected: Option<seq<int>>, saved: bool)
    requires OwnedByInstructor(school.instructors)
    ensures var r := EditPost(school, id, form, valid, selected, saved);
      r.Success? ==> OwnedByInstructor(r.value.0.instructors)
  {
    var r := EditPost(school, id, form, valid, selected, saved);
    if r.Success? && id.Some? && valid && saved {
      var found := SingleOrDefault(school.instructors, InstructorKey, id.value).value.value;
      var t1 := UpdateInstructorCourses(selected, Loaded(found, form)).value;
      ReplaceKeepsOwnership(school.instructors, Commit(t1).instructor);
    }
  }

  /** An Edit POST for an ID that no instructor has: the action as written
      throws instead of answering NotFound. */
  lemma EditPostUnknownIdThrows(form: EditForm, selected: Option<seq<int>>)
    ensures EditPost(School([], [], []), Some(999), form, true, selected, true) == Failure(ArgumentNull)
    ensures EditPostGuarded(School([], [], []), Some(999), form, true, selected, true)
         == Success((School([], [], []), NotFound))
  {
  }

  /** With a saved edit, the action writes the committed first
      reconciliation over the stored instructor, or fails with it. */
  lemma EditPostSavedWrites(school: School, i: Instructor, form: EditForm, selected: Option<seq<int>>)
    requires i in school.instructors && |Matching(school.instructors, InstructorKey, i.id)| == 1
    ensures var r1 := UpdateInstructorCourses(selected, Loaded(i, form));
      && (r1.Failure? ==> EditPost(school, Some(i.id), form, true, selected, true).Failure?)
      && (r1.Success? ==>
            EditPost(school, Some(i.id), form, true, selected, true)
              == Success((school.(instructors := Replace(school.instructors, Commit(r1.value).instructor)), Redirect)))
  {
  }

  /** What the committed first reconciliation holds: the selected courses,
      the submitted names, and the office unless its location is blank. */
  lemma {:induction false} SavedInstructor(i: Instructor, form: EditForm, selected: Option<seq<int>>)
    ensures var r1 := UpdateInstructorCourses(selected, Loaded(i, form));
      r1.Success? ==>
        var after := Commit(r1.value).instructor;
        && after.id == i.id
        && CourseIds(after.assignments) == Selected(selected)
        && after.firstMidName == form.firstMidName
        && after.lastName == form.lastName
        && after.hireDate == form.hireDate
        && (after.office.Some? <==> form.office.Some? && !IsNullOrWhiteSpace(form.office.value.location))
        && (after.office.Some? ==> after.office == Some(OfficeAssignment(i.id, form.office.value.location)))
  {
    var r1 := UpdateInstructorCourses(selected, Loaded(i, form));
    if r1.Success? {
      ReconcileYieldsSelection(selected, Loaded(i, form));
      var c := Commit(r1.value);
      assert c.instructor.(assignments := i.assignments, office := i.office)
          == ClearBlankOffice(ApplyEdits(i, form)).(office := i.office);
    }
  }

  /** A saved edit stores exactly the selected courses, the submitted names,
      and the office only when its location is not blank; every other
      instructor, course and department is untouched. It fails only when a
      course to drop has zero or several assignments. */
  lemma EditPostSaved(school: School, i: Instructor, form: EditForm, selected: Option<seq<int>>)
    requires i in school.instructors && |Matching(school.instructors, InstructorKey, i.id)| == 1
    ensures var r := EditPost(school, Some(i.id), form, true, selected, true);
      && (r.Success? <==>
            selected.None? ||
            forall k :: k in CourseIds(i.assignments) && k !in selected.value ==>
              |Matching(i.assignments, AssignmentCourse, k)| == 1)
      && (r.Success? ==>
            && r.value.1 == Redirect
            && r.value.0.courses == school.courses
            && r.value.0.departments == school.departments
            && |r.value.0.instructors| == |school.instructors|
            && forall k :: 0 <= k < |school.instructors| ==>
                 var before := school.instructors[k];
                 var after := r.value.0.instructors[k];
                 && (before.id != i.id ==> after == before)
                 && (before.id == i.id ==>
                       && after.id == i.id
                       && CourseIds(after.assignments) == Selected(selected)
                       && after.firstMidName == form.firstMidName
                       && after.lastName == form.lastName
                       && after.hireDate == form.hireDate
                       && (after.office.Some? <==>
                             form.office.Some? && !IsNullOrWhiteSpace(form.office.value.location))
                       && (after.office.Some? ==>
                             after.office == Some(OfficeAssignment(i.id, form.office.value.location)))))
  {
    EditPostSavedWrites(school, i, form, selected);
    SavedInstructor(i, form, selected);
  }

  /** When the save throws, the store is unchanged and the action still
      redirects; the second reconciliation cannot fail where the first
      succeeded. */
  lemma EditPostUnsaved(school: School, i: Instructor, form: EditForm, selected: Option<seq<int>>)
    requires i in school.instructors && |Matching(school.instructors, InstructorKey, i.id)| == 1
    ensures var r := EditPost(school, Some(i.id), form, true, selected, false);
      && (r.Success? <==>
            selected.None? ||
            forall k :: k in CourseIds(i.assignments) && k !in selected.value ==>
              |Matching(i.assignments, AssignmentCourse, k)| == 1)
      && (r.Success? ==> r.value == (school, Redirect))
  {
    ReconcileIdempotent(selected, Loaded(i, form));
  }
}

=== FILE: departments.dfy ===
/** `DeleteConfirmed`: deleting an instructor, after unlinking the
    departments that name the instructor as administrator. */
module Departments {
  import opened Results
  import opened Queries
  import opened Entities

  /** The `ForEach` that nulls the administrator reference of every
      department pointing at instructor `id`. */
  function UnlinkDepartments(departments: seq<Department>, id: int): (r: seq<Department>)
    ensures |r| == |departments|
    ensures forall k :: 0 <= k < |r| ==>
      if departments[k].instructorId == Some(id) then r[k] == departments[k].(instructorId := None)
      else r[k] == departments[k]
  {
    if |departments| == 0 then []
    else
      var d := departments[0];
      [if d.instructorId == Some(id) then d.(instructorId := None) else d]
        + UnlinkDepartments(departments[1..], id)
  }

  /** `DeleteConfirmed(id)`: `SingleAsync` loads the instructor (throwing
      unless exactly one has the ID), the departments are unlinked, and the
      instructor row goes. */
  function DeleteConfirmed(school: School, id: int): (r: Result<School>)
    ensures r.Success? <==> |Matching(school.instructors, InstructorKey, id)| == 1
    ensures r.Failure? ==> r.fault == InvalidOperation
    ensures r.Success? ==>
      && |r.value.instructors| == |school.instructors| - 1
      && (forall i :: i in r.value.instructors <==> i in school.instructors && i.id != id)
      && r.value.courses == school.courses
      && |r.value.departments| == |school.departments|
      && (forall k :: 0 <= k < |school.departments| ==>
            && (school.departments[k].instructorId == Some(id) ==>
                  r.value.departments[k] == school.departments[k].(instructorId := None))
            && (school.departments[k].instructorId != Some(id) ==>
                  r.value.departments[k] == school.departments[k]))
    ensures r.Success? && OwnedByInstructor(school.instructors) ==> OwnedByInstructor(r.value.instructors)
  {
    var instructor :- Single(school.instructors, InstructorKey, id);
    var departments := UnlinkDepartments(school.departments, id);
    Success(School(Excluding(school.instructors, InstructorKey, id), school.courses, departments))
  }

  /** Deleting an instructor takes exactly that instructor's course
      assignments and office with it, and no others. */
  lemma DeleteCascades(school: School, id: int)
    requires OwnedByInstructor(school.instructors)
    ensures DeleteConfirmed(school, id).Success? ==>
      var after := DeleteConfirmed(school, id).value.instructors;
      && AllAssignments(after) == (set ca | ca in AllAssignments(school.instructors) && ca.instructorId != id)
      && AllOffices(after) == (set o | o in AllOffices(school.instructors) && o.instructorId != id)
  {
  }
}

=== FILE: entities.dfy ===
/** The records the controller touches, reduced to the fields it reads or
    writes, and the school database as in-memory tables. */
module Entities {
  import opened Results
  import opened Queries

  /** Join record between an instructor and a course, keyed by the pair. */
  datatype CourseAssignment = CourseAssignment(instructorId: int, courseId: int)

  /** An instructor's office; `location` is a nullable string. */
  datatype OfficeAssignment = OfficeAssignment(instructorId: int, location: Option<string>)

  /** `hireDate` is the DateTime as an opaque tick count. */
  datatype Instructor = Instructor(
    id: int,
    lastName: string,
    firstMidName: string,
    hireDate: int,
    office: Option<OfficeAssignment>,
    assignments: seq<CourseAssignment>)

  datatype Enrollment = Enrollment(enrollmentId: int, studentId: int)

  datatype Course = Course(courseId: int, title: string, enrollments: seq<Enrollment>)

  /** `instructorId` is the nullable administrator reference. */
  datatype Department = Department(departmentId: int, name: string, instructorId: Option<int>)

  /** The tables the controller reads and writes. */
  datatype School = School(instructors: seq<Instructor>, courses: seq<Course>, departments: seq<Department>)

  // Key selectors, as the controller's lambdas use them.
  function InstructorKey(i: Instructor): int { i.id }
  function CourseKey(c: Course): int { c.courseId }
  function AssignmentCourse(ca: CourseAssignment): int { ca.courseId }

  /** The course IDs an assignment list covers. */
  function CourseIds(assignments: seq<CourseAssignment>): set<int> {
    set ca | ca in assignments :: ca.courseId
  }

  /** `assignments.Select(ca => ca.CourseID)`. */
  function CourseIdList(assignments: seq<CourseAssignment>): (r: seq<int>)
    ensures |r| == |assignments|
    ensures forall k :: 0 <= k < |r| ==> r[k] == assignments[k].courseId
    ensures forall c :: c in r <==> c in CourseIds(assignments)
  {
    if |assignments| == 0 then []
    else
      assert assignments == [assignments[0]] + assignments[1..];
      [assignments[0].courseId] + CourseIdList(assignments[1..])
  }

  /** One new assignment of `instructorId` per selected course ID, in
      selection order, duplicates kept. */
  function AssignmentsFor(instructorId: int, courseIds: seq<int>): (r: seq<CourseAssignment>)
    ensures CourseIdList(r) == courseIds
    ensures forall ca :: ca in r ==> ca.instructorId == instructorId
    ensures CourseIds(r) == SetOf(courseIds)
  {
    if |courseIds| == 0 then []
    else
      var rest := AssignmentsFor(instructorId, courseIds[1..]);
      assert courseIds == [courseIds[0]] + courseIds[1..];
      [CourseAssignment(instructorId, courseIds[0])] + rest
  }

  /** The course IDs present in the catalog. */
  function CatalogIds(catalog: seq<Course>): set<int> {
    set c | c in catalog :: c.courseId
  }

  /** Every assignment a table of instructors holds. */
  function AllAssignments(instructors: seq<Instructor>): set<CourseAssignment> {
    set i, ca | i in instructors && ca in i.assignments :: ca
  }

  /** Every office a table of instructors holds. */
  function AllOffices(instructors: seq<Instructor>): set<OfficeAssignment> {
    set i | i in instructors && i.office.Some? :: i.office.value
  }

  /** The foreign keys the schema enforces on the owned records: an
      instructor's assignments and office carry that instructor's ID. */
  predicate OwnedByInstructor(instructors: seq<Instructor>) {
    forall i :: i in instructors ==>
      && (forall ca :: ca in i.assignments ==> ca.instructorId == i.id)
      && (i.office.Some? ==> i.office.value.instructorId == i.id)
  }

  /** The relationship fixup a save performs: every dependent the
      instructor owns takes the instructor's key. */
  function FixKeys(i: Instructor): (r: Instructor)
    ensures r.(assignments := i.assignments, office := i.office) == i
    ensures |r.assignments| == |i.assignments|
    ensures forall k :: 0 <= k < |r.assignments| ==>
      r.assignments[k] == CourseAssignment(i.id, i.assignments[k].courseId)
    ensures CourseIds(r.assignments) == CourseIds(i.assignments)
    ensures r.office.Some? <==> i.office.Some?
    ensures r.office.Some? ==> r.office.value == OfficeAssignment(i.id, i.office.value.location)
    ensures OwnedByInstructor([r])
  {
    var assignments := AssignmentsFor(i.id, CourseIdList(i.assignments));
    assert forall k :: 0 <= k < |assignments| ==> assignments[k].courseId == CourseIdList(assignments)[k];
    assert forall ca :: ca in assignments ==> ca.instructorId == i.id;
    var office := if i.office.None? then None else Some(OfficeAssignment(i.id, i.office.value.location));
    i.(assignments := assignments, office := office)
  }

  /** An instructor whose dependents already carry its key is left alone
      by the fixup. */
  lemma FixKeysOwned(i: Instructor)
    requires OwnedByInstructor([i])
    ensures FixKeys(i) == i
  {
  }
}

=== FILE: index.dfy ===
/** The Index action's drill-down: all instructors, then optionally the
    courses of one instructor, then optionally the enrollments of one of
    those courses. */
module IndexPage {
  import opened Results
  import opened Queries
  import opened Entities

  /** `InstructorIndexData`; a null list is `None`. */
  datatype IndexData = IndexData(
    instructors: seq<Instructor>,
    courses: Option<seq<Course>>,
    enrollments: Option<seq<Enrollment>>)

  /** Every assignment of every instructor names a course of the catalog,
      as the foreign key from CourseAssignment to Course guarantees. */
  predicate CatalogResolves(instructors: seq<Instructor>, catalog: seq<Course>) {
    forall i, ca :: i in instructors && ca in i.assignments ==> ca.courseId in CatalogIds(catalog)
  }

  /** The `Course` navigation an eager load fills in: a catalog course with
      the assignment's course ID. */
  function Navigate(catalog: seq<Course>, courseId: int): (c: Course)
    requires courseId in CatalogIds(catalog)
    ensures c in catalog && c.courseId == courseId
  {
    if catalog[0].courseId == courseId then catalog[0]
    else
      assert courseId in CatalogIds(catalog[1..]) by {
        var c :| c in catalog && c.courseId == courseId;
        assert c in catalog[1..];
      }
      Navigate(catalog[1..], courseId)
  }

  /** `instructor.CourseAssignments.Select(ca => ca.Course)`. */
  function CoursesOf(catalog: seq<Course>, assignments: seq<CourseAssignment>): (r: seq<Course>)
    requires forall ca :: ca in assignments ==> ca.courseId in CatalogIds(catalog)
    ensures |r| == |assignments|
    ensures forall k :: 0 <= k < |r| ==> r[k] in catalog && r[k].courseId == assignments[k].courseId
  {
    if |assignments| == 0 then []
    else [Navigate(catalog, assignments[0].courseId)] + CoursesOf(catalog, assignments[1..])
  }

  /** Following the navigation keeps the number of courses carrying each ID. */
  lemma {:induction false} CoursesOfMatching(catalog: seq<Course>, assignments: seq<CourseAssignment>, k: int)
    requires forall ca :: ca in assignments ==> ca.courseId in CatalogIds(catalog)
    ensures |Matching(CoursesOf(catalog, assignments), CourseKey, k)| == |Matching(assignments, AssignmentCourse, k)|
  {
    if |assignments| > 0 {
      var courses := CoursesOf(catalog, assignments);
      assert courses[1..] == CoursesOf(catalog, assignments[1..]);
      CoursesOfMatching(catalog, assignments[1..], k);
    }
  }

  /** Lines 40-46: with an instructor ID, `Single` picks the instructor and
      its courses become the course list. */
  function InstructorCourses(instructors: seq<Instructor>, catalog: seq<Course>, id: Option<int>)
    : (r: Result<Option<seq<Course>>>)
    requires CatalogResolves(instructors, catalog)
    ensures id.None? ==> r == Success(None)
    ensures id.Some? ==> (r.Success? <==> |Matching(instructors, InstructorKey, id.value)| == 1)
    ensures r.Failure? ==> r.fault == InvalidOperation
    ensures r.Success? && id.Some? ==>
      && r.value.Some?
      && forall i :: i in instructors && i.id == id.value ==>
           && |r.value.value| == |i.assignments|
           && forall k :: 0 <= k < |i.assignments| ==>
                r.value.value[k] in catalog && r.value.value[k].courseId == i.assignments[k].courseId
  {
    if id.None? then Success(None)
    else
      var instructor :- Single(instructors, InstructorKey, id.value);
      Success(Some(CoursesOf(catalog, instructor.assignments)))
  }

  /** Lines 48-53: with a course ID, `Single` picks that course from the
      course list. Without an instructor ID the list is null, and the
      `Where` extension method rejects a null source. */
  function CourseEnrollments(courses: Option<seq<Course>>, courseId: Option<int>)
    : (r: Result<Option<seq<Enrollment>>>)
    ensures courseId.None? ==> r == Success(None)
    ensures courseId.Some? && courses.None? ==> r == Failure(ArgumentNull)
    ensures courseId.Some? && courses.Some? ==>
      (r.Success? <==> |Matching(courses.value, CourseKey, courseId.value)| == 1)
    ensures courseId.Some? && courses.Some? && r.Failure? ==> r.fault == InvalidOperation
    ensures r.Success? && courseId.Some? ==>
      && courses.Some?
      && r.value.Some?
      && exists c :: c in courses.value && c.courseId == courseId.value && r.value.value == c.enrollments
  {
    if courseId.None? then Success(None)
    else if courses.None? then Failure(ArgumentNull)
    else
      var course :- Single(courses.value, CourseKey, courseId.value);
      Success(Some(course.enrollments))
  }

  /** `Index(id, courseId)` over the instructors as loaded. */
  function Index(instructors: seq<Instructor>, catalog: seq<Course>, id: Option<int>, courseId: Option<int>)
    : (r: Result<IndexData>)
    requires CatalogResolves(instructors, catalog)
    ensures r.Success? ==>
      && r.value.instructors == instructors
      && (r.value.courses.Some? <==> id.Some?)
      && (r.value.enrollments.Some? <==> courseId.Some?)
    ensures id.None? && courseId.None? ==> r.Success?
    ensures id.None? && courseId.Some? ==> r == Failure(ArgumentNull)
    ensures id.Some? && |Matching(instructors, InstructorKey, id.value)| != 1 ==> r == Failure(InvalidOperation)
    ensures r.Success? && id.Some? ==>
      forall i :: i in instructors && i.id == id.value ==>
        && |r.value.courses.value| == |i.assignments|
        && forall k :: 0 <= k < |i.assignments| ==>
             r.value.courses.value[k] in catalog && r.value.courses.value[k].courseId == i.assignments[k].courseId
    ensures r.Success? && courseId.Some? ==>
      exists c :: c in catalog && c.courseId == courseId.value && r.value.enrollments == Some(c.enrollments)
  {
    var courses :- InstructorCourses(instructors, catalog, id);
    var enrollments :- CourseEnrollments(courses, courseId);
    Success(IndexData(instructors, courses, enrollments))
  }

  /** With both IDs given and the instructor found, the drill-down succeeds
      exactly when the instructor has one assignment for the course. */
  lemma DrillDownSucceedsIff(instructors: seq<Instructor>, catalog: seq<Course>, i: Instructor, courseId: int)
    requires CatalogResolves(instructors, catalog)
    requires i in instructors && |Matching(instructors, InstructorKey, i.id)| == 1
    ensures Index(instructors, catalog, Some(i.id), Some(courseId)).Success?
        <==> |Matching(i.assignments, AssignmentCourse, courseId)| == 1
    ensures courseId !in CourseIds(i.assignments) ==>
      Index(instructors, catalog, Some(i.id), Some(courseId)) == Failure(InvalidOperation)
  {
    var courses := InstructorCourses(instructors, catalog, Some(i.id));
    assert courses.Success?;
    assert i in Matching(instructors, InstructorKey, i.id);
    var m := Matching(instructors, InstructorKey, i.id);
    assert m[0] in m;
    var j := Single(instructors, InstructorKey, i.id).value;
    assert j == i;
    CoursesOfMatching(catalog, i.assignments, courseId);
    if courseId !in CourseIds(i.assignments) {
      assert forall ca :: ca in i.assignments ==> AssignmentCourse(ca) != courseId;
    }
  }

  /** A successful drill-down shows the enrollments of the chosen course. */
  lemma DrillDownShowsEnrollments(instructors: seq<Instructor>, catalog: seq<Course>, id: int, course: Course)
    requires CatalogResolves(instructors, catalog)
    requires course in catalog && |Matching(catalog, CourseKey, course.courseId)| == 1
    ensures Index(instructors, catalog, Some(id), Some(course.courseId)).Success? ==>
      Index(instructors, catalog, Some(id), Some(course.courseId)).value.enrollments == Some(course.enrollments)
  {
    var r := Index(instructors, catalog, Some(id), Some(course.courseId));
    if r.Success? {
      var c :| c in catalog && c.courseId == course.courseId && r.value.enrollments == Some(c.enrollments);
      var m := Matching(catalog, CourseKey, course.courseId);
      assert c in m && course in m;
      assert m == [m[0]];
    }
  }
}

=== FILE: office.dfy ===
/** The Edit action's rule that an office with a blank location is no
    office at all. */
module Office {
  import opened Results
  import opened Entities

  /** `char.IsWhiteSpace`: the Unicode space, line and paragraph
      separators, the controls U+0009 to U+000D, and U+0085. */
  predicate IsWhiteSpace(c: char) {
    || c == ' '
    || ('\t' <= c <= '\r')
    || c == '\U{0085}'
    || c == '\U{00A0}'
    || c == '\U{1680}'
    || ('\U{2000}' <= c <= '\U{200A}')
    || c == '\U{2028}'
    || c == '\U{2029}'
    || c == '\U{202F}'
    || c == '\U{205F}'
    || c == '\U{3000}'
  }

  /** `TrimStart()`: the string without its leading white space. */
  function TrimStart(s: string): (r: string)
    ensures |r| <= |s| && r == s[|s| - |r|..]
    ensures |r| > 0 ==> !IsWhiteSpace(r[0])
  {
    if |s| > 0 && IsWhiteSpace(s[0]) then TrimStart(s[1..]) else s
  }

  /** A string is all white space exactly when trimming leaves nothing. */
  lemma {:induction false} AllWhiteSpaceIffTrimmedEmpty(s: string)
    ensures (forall k :: 0 <= k < |s| ==> IsWhiteSpace(s[k])) <==> TrimStart(s) == ""
  {
    if |s| > 0 {
      AllWhiteSpaceIffTrimmedEmpty(s[1..]);
      assert forall k :: 1 <= k < |s| ==> s[k] == s[1..][k - 1];
    }
  }

  /** `String.IsNullOrWhiteSpace`: by its documented equivalent, null or
      nothing left once the white space is trimmed. */
  predicate IsNullOrWhiteSpace(s: Option<string>): (b: bool)
    ensures b <==> s.None? || TrimStart(s.value) == ""
  {
    if s.None? then true
    else
      AllWhiteSpaceIffTrimmedEmpty(s.value);
      forall k :: 0 <= k < |s.value| ==> IsWhiteSpace(s.value[k])
  }

  /** `instructor.OfficeAssignment?.Location`. */
  function OfficeLocation(instructor: Instructor): Option<string> {
    if instructor.office.None? then None else instructor.office.value.location
  }

  /** Drops an office whose location is null, empty or only white space. */
  function ClearBlankOffice(instructor: Instructor): (r: Instructor)
    ensures r.office.None? <==>
      instructor.office.None? || instructor.office.value.location.None?
      || forall k :: 0 <= k < |instructor.office.value.location.value| ==>
           IsWhiteSpace(instructor.office.value.location.value[k])
    ensures r.office.Some? ==> r.office == instructor.office
    ensures r.office.Some? ==>
      && r.office.value.location.Some?
      && exists k :: 0 <= k < |r.office.value.location.value| && !IsWhiteSpace(r.office.value.location.value[k])
    ensures r.(office := instructor.office) == instructor
  {
    if IsNullOrWhiteSpace(OfficeLocation(instructor)) then instructor.(office := None) else instructor
  }
}

=== FILE: queries.dfy ===
/** The LINQ and `HashSet` operations the controller relies on, over
    in-memory sequences. Entities are compared by a key function, the way
    the controller's lambdas compare an ID with a wanted value. */
module Queries {
  import opened Results

  predicate NoDuplicates<T(==,!new)>(xs: seq<T>) {
    forall i, j :: 0 <= i < j < |xs| ==> xs[i] != xs[j]
  }

  function SetOf<T(==,!new)>(xs: seq<T>): set<T> {
    set x | x in xs
  }

  /** `xs.Where(x => key(x) == k)`: the matching elements, in order. */
  function Matching<T(==,!new)>(xs: seq<T>, key: T -> int, k: int): (r: seq<T>)
    ensures |r| <= |xs|
    ensures forall x :: x in r <==> x in xs && key(x) == k
    ensures (forall x :: x in xs ==> key(x) != k) ==> r == []
  {
    if |xs| == 0 then []
    else if key(xs[0]) == k then [xs[0]] + Matching(xs[1..], key, k)
    else Matching(xs[1..], key, k)
  }

  /** `xs.Where(x => key(x) != k)`: everything except the matches, in order. */
  function Excluding<T(==,!new)>(xs: seq<T>, key: T -> int, k: int): (r: seq<T>)
    ensures |r| + |Matching(xs, key, k)| == |xs|
    ensures forall x :: x in r <==> x in xs && key(x) != k
  {
    if |xs| == 0 then []
    else if key(xs[0]) == k then Excluding(xs[1..], key, k)
    else [xs[0]] + Excluding(xs[1..], key, k)
  }

  /** Filtering distributes over concatenation. */
  lemma {:induction false} MatchingConcat<T(!new)>(a: seq<T>, b: seq<T>, key: T -> int, k: int)
    ensures Matching(a + b, key, k) == Matching(a, key, k) + Matching(b, key, k)
  {
    if |a| > 0 {
      assert (a + b)[0] == a[0];
      assert (a + b)[1..] == a[1..] + b;
      MatchingConcat(a[1..], b, key, k);
      if key(a[0]) == k {
        calc {
          Matching(a + b, key, k);
          [a[0]] + Matching(a[1..] + b, key, k);
          [a[0]] + (Matching(a[1..], key, k) + Matching(b, key, k));
          ([a[0]] + Matching(a[1..], key, k)) + Matching(b, key, k);
        }
      }
    } else {
      assert a + b == b;
    }
  }

  /** `xs.Single(x => key(x) == k)`: the one match, or an
      InvalidOperationException when there are none or several. */
  function Single<T(==,!new)>(xs: seq<T>, key: T -> int, k: int): (r: Result<T>)
    ensures r.Success? <==> |Matching(xs, key, k)| == 1
    ensures r.Failure? ==> r.fault == InvalidOperation
    ensures r.Success? ==> r.value in xs && key(r.value) == k
    ensures r.Success? ==> forall x :: x in xs && key(x) == k ==> x == r.value
  {
    var m := Matching(xs, key, k);
    if |m| == 1 then
      assert m[0] in m;
      assert forall x :: x in m ==> x == m[0];
      Success(m[0])
    else Failure(InvalidOperation)
  }

  /** `xs.SingleOrDefault(x => key(x) == k)`: null when nothing matches,
      the match when exactly one does, InvalidOperationException otherwise. */
  function SingleOrDefault<T(==,!new)>(xs: seq<T>, key: T -> int, k: int): (r: Result<Option<T>>)
    ensures r.Success? <==> |Matching(xs, key, k)| <= 1
    ensures r.Failure? ==> r.fault == InvalidOperation
    ensures r == Success(None) <==> forall x :: x in xs ==> key(x) != k
    ensures r.Success? && r.value.Some? ==>
      && r.value.value in xs && key(r.value.value) == k
      && forall x :: x in xs && key(x) == k ==> x == r.value.value
  {
    var m := Matching(xs, key, k);
    if |m| == 0 then Success(None)
    else if |m| == 1 then
      assert m[0] in m;
      Success(Some(Single(xs, key, k).value))
    else
      assert m[0] in m;
      Failure(InvalidOperation)
  }

  /** The elements of `new HashSet<T>(xs)` in enumeration order: each value
      once, at its first occurrence. */
  function Distinct<T(==,!new)>(xs: seq<T>): (r: seq<T>)
    ensures forall x :: x in r <==> x in xs
    ensures NoDuplicates(r)
  {
    if |xs| == 0 then []
    else
      var init := xs[..|xs| - 1];
      var rest := Distinct(init);
      assert xs == init + [xs[|xs| - 1]];
      if xs[|xs| - 1] in rest then rest else rest + [xs[|xs| - 1]]
  }

  /** The elements of `xs` that are not in `ys`, in order. */
  function Without<T(==,!new)>(xs: seq<T>, ys: seq<T>): (r: seq<T>)
    ensures forall x :: x in r <==> x in xs && x !in ys
  {
    if |xs| == 0 then []
    else if xs[0] in ys then Without(xs[1..], ys)
    else [xs[0]] + Without(xs[1..], ys)
  }

  /** `xs.Except(ys)`: the distinct elements of `xs` absent from `ys`. */
  function Except<T(==,!new)>(xs: seq<T>, ys: seq<T>): (r: seq<T>)
    ensures forall x :: x in r <==> x in xs && x !in ys
    ensures NoDuplicates(r)
  {
    Distinct(Without(xs, ys))
  }
}

=== FILE: reconcile.dfy ===
/** `UpdateInstructorCourses`: bringing an instructor's course assignments
    in line with the submitted selection. The persistence context is
    modelled as the set of assignments handed to `Remove` and not yet saved. */
module Reconciliation {
  import opened Results
  import opened Queries
  import opened Entities

  /** The tracked instructor and the assignments marked for deletion. */
  datatype Tracked = Tracked(instructor: Instructor, pending: set<CourseAssignment>)

  /** The elements of `xs` that are not marked for deletion, in order. */
  function Keep(xs: seq<CourseAssignment>, pending: set<CourseAssignment>): (r: seq<CourseAssignment>)
    ensures forall ca :: ca in r <==> ca in xs && ca !in pending
  {
    if |xs| == 0 then []
    else if xs[0] in pending then Keep(xs[1..], pending)
    else [xs[0]] + Keep(xs[1..], pending)
  }

  /** The assignments the store holds once the pending removals are saved. */
  function Effective(t: Tracked): seq<CourseAssignment> {
    Keep(t.instructor.assignments, t.pending)
  }

  /** A successful `SaveChanges`: deleted entities leave the collection,
      the relationship fixup gives the remaining dependents the
      instructor's key, and nothing is pending any more. */
  function Commit(t: Tracked): (r: Tracked)
    ensures r.pending == {}
    ensures CourseIds(r.instructor.assignments) == CourseIds(Effective(t))
    ensures r.instructor.(assignments := t.instructor.assignments, office := t.instructor.office) == t.instructor
    ensures r.instructor.office.Some? <==> t.instructor.office.Some?
    ensures r.instructor.office.Some? ==>
      r.instructor.office.value == OfficeAssignment(t.instructor.id, t.instructor.office.value.location)
    ensures OwnedByInstructor([r.instructor])
  {
    Tracked(FixKeys(t.instructor.(assignments := Effective(t))), {})
  }

  /** The course IDs an optional selection stands for; a null selection
      stands for none. */
  function Selected(selected: Option<seq<int>>): set<int> {
    if selected.None? then {} else SetOf(selected.value)
  }

  /** No assignment already marked for deletion carries a selected course.
      A freshly loaded instructor has nothing pending, so this holds. */
  predicate PendingDisjoint(t: Tracked, selected: Option<seq<int>>) {
    forall ca :: ca in t.pending ==> ca.courseId !in Selected(selected)
  }

  /** The removal loop: for each ID, `Single` finds the assignment carrying
      it, and `Remove` marks that assignment for deletion. */
  function MarkRemovals(xs: seq<CourseAssignment>, ids: seq<int>, pending: set<CourseAssignment>)
    : (r: Result<set<CourseAssignment>>)
    ensures r.Success? <==> forall k :: k in ids ==> |Matching(xs, AssignmentCourse, k)| == 1
    ensures r.Failure? ==> r.fault == InvalidOperation
    ensures r.Success? ==> r.value == pending + (set ca | ca in xs && ca.courseId in ids)
    decreases |ids|
  {
    if |ids| == 0 then Success(pending)
    else
      var found := Single(xs, AssignmentCourse, ids[0]);
      if found.Failure? then
        assert ids[0] in ids;
        Failure(found.fault)
      else
        var ca := found.value;
        var r := MarkRemovals(xs, ids[1..], pending + {ca});
        assert forall k :: k in ids <==> k == ids[0] || k in ids[1..];
        assert r.Success? ==>
          (set c | c in xs && c.courseId in ids)
            == {ca} + (set c | c in xs && c.courseId in ids[1..]);
        r
  }

  /** The assignments appended for the selected courses the instructor
      lacks: `selectedCoursesSet.Except(instructorCoursesSet)`. */
  function Additions(t: Tracked, sel: seq<int>): (added: seq<CourseAssignment>)
    ensures forall ca :: ca in added ==> ca.instructorId == t.instructor.id
    ensures forall k :: k in CourseIds(added) <==> k in sel && k !in CourseIds(t.instructor.assignments)
    ensures NoDuplicates(CourseIdList(added))
  {
    var selectedSet := Distinct(sel);
    var instructorSet := Distinct(CourseIdList(t.instructor.assignments));
    AssignmentsFor(t.instructor.id, Except(selectedSet, instructorSet))
  }

  /** The course IDs whose assignments are dropped:
      `instructorCoursesSet.Except(selectedCoursesSet)`. */
  function RemovalIds(a: seq<CourseAssignment>, sel: seq<int>): (ids: seq<int>)
    ensures forall k :: k in ids <==> k in CourseIds(a) && k !in sel
  {
    Except(Distinct(CourseIdList(a)), Distinct(sel))
  }

  /** Appending assignments of selected courses does not change what the
      removal loop finds for an unselected course. */
  lemma {:induction false} AppendedInvisible(a: seq<CourseAssignment>, added: seq<CourseAssignment>, sel: seq<int>, k: int)
    requires forall c :: c in CourseIds(added) ==> c in sel
    requires k !in sel
    ensures Matching(a + added, AssignmentCourse, k) == Matching(a, AssignmentCourse, k)
  {
    assert forall ca :: ca in added ==> ca.courseId in CourseIds(added);
    MatchingConcat(a, added, AssignmentCourse, k);
  }

  /** Marking by removal ID over the grown collection marks exactly the
      original assignments of unselected courses. */
  lemma MarkedAreOriginal(a: seq<CourseAssignment>, added: seq<CourseAssignment>, sel: seq<int>)
    requires forall c :: c in CourseIds(added) ==> c in sel
    ensures (set ca | ca in a + added && ca.courseId in RemovalIds(a, sel))
         == (set ca | ca in a && ca.courseId !in sel)
  {
    assert forall ca :: ca in added ==> ca.courseId in CourseIds(added);
  }

  /** `UpdateInstructorCourses(selectedCourses, instructorToUpdate)`. */
  function UpdateInstructorCourses(selected: Option<seq<int>>, t: Tracked): (r: Result<Tracked>)
    // A null selection empties the collection and marks nothing.
    ensures selected.None? ==>
      r.Success? && r.value.instructor.assignments == [] && r.value.pending == t.pending
    // `Single` fails exactly when a course to drop has zero or several assignments.
    ensures r.Success? <==>
      selected.None? ||
      forall k :: k in CourseIds(t.instructor.assignments) && k !in selected.value ==>
        |Matching(t.instructor.assignments, AssignmentCourse, k)| == 1
    ensures r.Failure? ==> r.fault == InvalidOperation
    // Only the collection and the pending set change.
    ensures r.Success? ==> r.value.instructor.(assignments := t.instructor.assignments) == t.instructor
    // Existing assignments stay in place; the new ones are appended.
    ensures r.Success? && selected.Some? ==>
      && |t.instructor.assignments| <= |r.value.instructor.assignments|
      && r.value.instructor.assignments[..|t.instructor.assignments|] == t.instructor.assignments
      && r.value.instructor.assignments[|t.instructor.assignments|..] == Additions(t, selected.value)
    // Exactly the existing assignments of unselected courses are marked.
    ensures r.Success? && selected.Some? ==>
      r.value.pending ==
        t.pending + (set ca | ca in t.instructor.assignments && ca.courseId !in selected.value)
  {
    match selected
    case None => Success(Tracked(t.instructor.(assignments := []), t.pending))
    case Some(sel) =>
      var a := t.instructor.assignments;
      var added := Additions(t, sel);
      var grown := a + added;
      var removeIds := RemovalIds(a, sel);
      assert grown[..|a|] == a && grown[|a|..] == added;
      assert forall k :: k in removeIds ==>
        Matching(grown, AssignmentCourse, k) == Matching(a, AssignmentCourse, k) by {
        forall k | k in removeIds
          ensures Matching(grown, AssignmentCourse, k) == Matching(a, AssignmentCourse, k)
        {
          AppendedInvisible(a, added, sel, k);
        }
      }
      MarkedAreOriginal(a, added, sel);
      var pending :- MarkRemovals(grown, removeIds, t.pending);
      Success(Tracked(t.instructor.(assignments := grown), pending))
  }

  /** A non-empty assignment list covers at least its first course. */
  lemma FirstCourseCovered(xs: seq<CourseAssignment>)
    ensures xs != [] ==> xs[0].courseId in CourseIds(xs)
  {
  }

  /** An assignment list that covers no course is empty. */
  lemma NothingToAdd(added: seq<CourseAssignment>)
    requires CourseIds(added) == {}
    ensures added == []
  {
    FirstCourseCovered(added);
  }

  /** Once the pending removals are applied, the instructor holds exactly
      the selected courses: nothing selected is missing and nothing
      unselected survives. */
  lemma {:induction false} ReconcileYieldsSelection(selected: Option<seq<int>>, t: Tracked)
    requires PendingDisjoint(t, selected)
    ensures UpdateInstructorCourses(selected, t).Success? ==>
      forall k :: k in CourseIds(Effective(UpdateInstructorCourses(selected, t).value)) <==> k in Selected(selected)
  {
    var r := UpdateInstructorCourses(selected, t);
    if r.Success? && selected.Some? {
      var sel := selected.value;
      var a := t.instructor.assignments;
      var added := Additions(t, sel);
      var g := r.value.instructor.assignments;
      assert g == a + added by {
        assert g == g[..|a|] + g[|a|..];
      }
      var eff := Effective(r.value);
      forall k | k in sel
        ensures k in CourseIds(eff)
      {
        if k in CourseIds(a) {
          var ca :| ca in a && ca.courseId == k;
          assert ca in g && ca !in r.value.pending;
        } else {
          assert k in CourseIds(added);
          var ca :| ca in added && ca.courseId == k;
          assert ca in g && ca !in r.value.pending;
        }
      }
      forall k | k in CourseIds(eff)
        ensures k in sel
      {
        var ca :| ca in eff && ca.courseId == k;
        if ca in added {
          assert k in CourseIds(added);
        }
      }
    }
  }

  /** A successful run leaves the old collection followed by the additions. */
  lemma GrownIsAppend(sel: seq<int>, t: Tracked)
    requires UpdateInstructorCourses(Some(sel), t).Success?
    ensures UpdateInstructorCourses(Some(sel), t).value.instructor.assignments
         == t.instructor.assignments + Additions(t, sel)
  {
  }

  /** A second run over a first run's result cannot fail: every unselected
      course still has exactly one assignment. */
  lemma {:induction false} SecondRunSucceeds(sel: seq<int>, t: Tracked)
    requires UpdateInstructorCourses(Some(sel), t).Success?
    ensures UpdateInstructorCourses(Some(sel), UpdateInstructorCourses(Some(sel), t).value).Success?
  {
  }

  /** After a run, every selected course has an assignment in the collection. */
  lemma {:induction false} SelectionCovered(sel: seq<int>, t: Tracked)
    requires UpdateInstructorCourses(Some(sel), t).Success?
    ensures forall k :: k in sel ==> k in CourseIds(UpdateInstructorCourses(Some(sel), t).value.instructor.assignments)
  {
  }

  /** After a run, every assignment of an unselected course is pending. */
  lemma {:induction false} UnselectedPending(sel: seq<int>, t: Tracked)
    requires UpdateInstructorCourses(Some(sel), t).Success?
    ensures var t1 := UpdateInstructorCourses(Some(sel), t).value;
      forall ca :: ca in t1.instructor.assignments && ca.courseId !in sel ==> ca in t1.pending
  {
  }

  /** The idempotence argument for a non-null selection. */
  lemma {:induction false} SecondRunIsIdentity(sel: seq<int>, t: Tracked)
    requires UpdateInstructorCourses(Some(sel), t).Success?
    ensures UpdateInstructorCourses(Some(sel), UpdateInstructorCourses(Some(sel), t).value)
         == UpdateInstructorCourses(Some(sel), t)
  {
    var t1 := UpdateInstructorCourses(Some(sel), t).value;
    var g := t1.instructor.assignments;
    SecondRunSucceeds(sel, t);
    SelectionCovered(sel, t);
    UnselectedPending(sel, t);
    var t2 := UpdateInstructorCourses(Some(sel), t1).value;
    NothingToAdd(Additions(t1, sel));
    GrownIsAppend(sel, t1);
    assert t2.instructor.assignments == g;
    assert t2.pending == t1.pending;
  }

  /** Running the reconciliation again with the same selection, on the state
      the first run left, adds nothing and marks nothing new. */
  lemma {:induction false} ReconcileIdempotent(selected: Option<seq<int>>, t: Tracked)
    ensures UpdateInstructorCourses(selected, t).Success? ==>
      var t1 := UpdateInstructorCourses(selected, t).value;
      UpdateInstructorCourses(selected, t1) == Success(t1)
  {
    if UpdateInstructorCourses(selected, t).Success? && selected.Some? {
      SecondRunIsIdentity(selected.value, t);
    }
  }

  /** An instructor that already holds exactly the selected courses, with
      nothing pending, is left as it is. */
  lemma {:induction false} MatchingSelectionIsFixed(sel: seq<int>, c: Tracked)
    requires c.pending == {}
    requires forall k :: k in CourseIds(c.instructor.assignments) <==> k in sel
    ensures UpdateInstructorCourses(Some(sel), c) == Success(c)
  {
    var a := c.instructor.assignments;
    var r2 := UpdateInstructorCourses(Some(sel), c);
    assert r2.Success? by {
      assert forall k :: k in CourseIds(a) ==> k in sel;
    }
    var t2 := r2.value;
    NothingToAdd(Additions(c, sel));
    GrownIsAppend(sel, c);
    assert t2.instructor.assignments == a;
    assert t2.instructor == c.instructor;
    assert (set ca | ca in a && ca.courseId !in sel) == {} by {
      forall ca | ca in a
        ensures ca.courseId in sel
      {
        assert ca.courseId in CourseIds(a);
      }
    }
    assert t2.pending == {};
  }

  /** After a successful save, the second reconciliation the Edit action
      performs finds nothing to do. */
  lemma {:induction false} ReconcileAfterSave(selected: Option<seq<int>>, t: Tracked)
    requires PendingDisjoint(t, selected)
    ensures UpdateInstructorCourses(selected, t).Success? ==>
      var saved := Commit(UpdateInstructorCourses(selected, t).value);
      UpdateInstructorCourses(selected, saved) == Success(saved)
  {
    var r := UpdateInstructorCourses(selected, t);
    if r.Success? {
      ReconcileYieldsSelection(selected, t);
      var c := Commit(r.value);
      if selected.Some? {
        MatchingSelectionIsFixed(selected.value, c);
      } else {
        assert Keep(r.value.instructor.assignments, r.value.pending) == [];
      }
    }
  }
}

=== FILE: results.dfy ===
/** Failure-compatible wrappers for the controller's lookups and for the
    exceptions the framework calls throw. */
module Results {

  /** A reference that may be null. */
  datatype Option<+T> = None | Some(value: T)

  /** The exceptions the modelled code can raise. */
  datatype Fault =
    | InvalidOperation   // `Single`/`SingleAsync`/`SingleOrDefault` saw the wrong number of matches
    | ArgumentNull       // a framework call or LINQ operator was handed a null argument

  /** Either a value or the exception that replaced it. */
  datatype Result<+T> = Success(value: T) | Failure(fault: Fault) {

    predicate IsFailure() {
      Failure?
    }

    function PropagateFailure<U>(): Result<U>
      requires Failure?
    {
      Failure(fault)
    }

    function Extract(): T
      requires Success?
    {
      value
    }
  }
}
